=== FILE: README.md ===
# Cyclic sequence simulator over an order-statistics AVL tree

This project models the core of a small Java program that simulates a
cyclic sequence with a moving pointer. The sequence is stored in an
order-statistics AVL tree: a height-balanced binary tree keyed by in-order
position, not by value. Each node caches the height and size of its subtree.

Each step of the simulator reads the value `v` under the pointer:

- If `v % 2 == 1` (Java's `%`), it is an ADD. It inserts `v - 1` right after
  the pointer, then moves the pointer `v` places around the grown sequence.
- Otherwise it is a DELETE. It removes the element cyclically after the
  pointer and remembers the removed value `x`. It corrects the pointer for
  the shift, then moves it `x` places around the shrunk sequence.

After `k` steps, the contents are read out starting at the pointer.

Modules:

- `Errors` holds the exceptions of the Java program as values:
  - `IndexOutOfBounds` for a positional access out of range;
  - `IllegalState` for reading from an empty tree.
- `AvlTree` (`src/Node.java`, `src/Tree.java`) models the tree as an
  immutable datatype `Tree = Empty | Node(left, key, height, size, right)`.
  - `Elems` is the in-order abstraction.
  - `CachesOk`, `Balanced` and `Valid` are the representation invariant.
  - The recursive helpers and the rotations are pure functions.
  - The public operations `Get`, `InsertAt` and `RemoveAt` return `Err` exactly
    when the Java method throws.
- `SequenceSteps` (`src/Sequence.java`) states the simulator's operations on
  the in-order contents, a `Config(xs, p)`.
  - Java's truncating `%` is modelled as `JavaRem`.
  - Every exception is an `Err`.
  - These functions are related to the reference step of `CyclicSpec`.
- `CyclicSpec` is a reference statement of the same step with Euclidean
  remainders, plus `Iterate` and `Rotation`.
- `CyclicSequence` (`src/Sequence.java`) is the simulator proper: a tree and a
  pointer.
  - `GetValueAt`, `DoAdd`, `DoDelete`, `DoOperation` and
    `PerformKOperations` are each proved to compute exactly the list-level
    function of `SequenceSteps` on the contents of the tree (`ValueAt`,
    `AddStep`, `DeleteStep`, `Step`, `Run`).
  - `NewSequence` is proved to give the configuration `Config(init, 0)`.
  - `Render` is proved to read position `CyclicIndex(pointer, j, size)` for
    output j, which is the `Rotation` of the contents when the pointer is in
    range.
  - `Simulate` composes the constructor, `performKOperations` and
    `toCyclicString`, as `src/Main.java` does. For any initial values it
    is proved to fail exactly when `Run` fails or the read-out reaches a
    negative position, and otherwise to read the final contents from the
    pointer. On non-negative input it is proved never to fail and to equal
    the rotation of the reference configuration after `Iterate`.
- `ModArith` holds a few facts about Dafny's `%`.

Two consequences of Java's `%`, which keeps the sign of a negative dividend:

- The pointer is guaranteed to stay in range only while no stored value is negative. A
  negative removed value can leave the pointer negative
  (`src/Sequence.java:70`), and the next read then throws
  (`SequenceSteps.NegativeValueBreaksPointer`). The pointer bound is
  therefore proved under `NonNegative` (`SequenceSteps.PointerBound`, and
  the non-negative clause of `CyclicSequence.Simulate`).
- `v % 2 == 1` (`src/Sequence.java:19`) is false for a negative odd value, so
  that value goes to DELETE, where Euclidean parity (`CyclicSpec.Next`) would
  ADD (`SequenceSteps.NegativeOddDeletes`).

## Model

| member | source | states |
|---|---|---|
| AvlTree.NewNode | src/Node.java:8-12 | a fresh node holds exactly its key, has height 1 and size 1, and is a valid balanced leaf |
| AvlTree.SizeIsLength | src/Tree.java:5-7 | the cached size of a tree with correct caches is the length of its in-order sequence |
| AvlTree.Height | src/Tree.java:177-179 | the cached height, 0 for an empty subtree; its properties are stated by `CachedHeight` |
| AvlTree.Size | src/Tree.java:181-183 | the cached size, 0 for an empty subtree; its properties are stated by `SizeIsLength` |
| AvlTree.CachedHeight | src/Tree.java:177-179 | cached heights are non-negative, and a subtree is non-empty exactly when its height is at least 1 |
| AvlTree.Update | src/Tree.java:131-134 | recomputing a node's caches keeps its children and key, makes the caches correct when the children's are, and changes nothing on a node whose caches are already correct |
| AvlTree.Get | src/Tree.java:13-18 | succeeds exactly for 0 <= i < size, and then yields the i-th element of the in-order sequence; otherwise IndexOutOfBounds |
| AvlTree.ValueByIndex | src/Tree.java:49-61 | descending by the left subtree's cached size reaches the i-th in-order element |
| AvlTree.InsertAt | src/Tree.java:24-29 | succeeds exactly for 0 <= i <= size; the result is valid and its sequence is the old one with k inserted at position i (so i == size appends); otherwise IndexOutOfBounds |
| AvlTree.InsertAtNode | src/Tree.java:64-79 | the recursive insertion performs sequence insertion at i, keeps the caches correct, and keeps a balanced tree balanced, growing it by at most one level |
| AvlTree.InsertedLeft | src/Tree.java:71-72 | inserting into the left subtree at i, then updating and rebalancing, inserts at i in the whole node |
| AvlTree.InsertedRight | src/Tree.java:73-75 | inserting into the right subtree at i - leftSize - 1 inserts at i in the whole node |
| AvlTree.GrownLeft | src/Tree.java:77-78 | a left child that grew by at most one level leaves a balanced node balanced after update and rebalance, at most one level higher |
| AvlTree.GrownRight | src/Tree.java:77-78 | the same for a right child that grew |
| AvlTree.RemoveAt | src/Tree.java:34-42 | succeeds exactly for 0 <= i < size; it returns the old i-th element, and the valid result tree holds the old sequence without position i; otherwise IndexOutOfBounds |
| AvlTree.RemoveAtNode | src/Tree.java:82-110 | the recursive removal deletes exactly position i from the in-order sequence and keeps the caches correct |
| AvlTree.DeletedLeft | src/Tree.java:89-90 | removing position i from the left subtree removes position i from the node |
| AvlTree.DeletedRight | src/Tree.java:91-92 | removing position i - leftSize - 1 from the right subtree removes position i from the node |
| AvlTree.RemoveRoot | src/Tree.java:93-108 | removing the node itself (promoting the only child, or copying in the successor) leaves the left subtree's sequence followed by the right subtree's |
| AvlTree.SuccessorPromoted | src/Tree.java:98-101 | copying the successor's key into the node and removing the successor from the right subtree loses exactly the node's own key |
| AvlTree.RemoveAtNodeAvl | src/Tree.java:105-108 | removal keeps a valid tree valid (balanced, caches correct) and lowers its height by at most one |
| AvlTree.RemoveRootAvl | src/Tree.java:95-108 | removing a node's own key keeps the subtree valid and lowers its height by at most one |
| AvlTree.ShrunkLeft | src/Tree.java:105-108 | a left child at most one level lower leaves a valid node valid after update and rebalance, at most one level lower |
| AvlTree.ShrunkRight | src/Tree.java:105-108 | the same for a right child that shrank |
| AvlTree.GetMin | src/Tree.java:113-118 | the leftmost key of a non-empty subtree is its first in-order element |
| AvlTree.RemoveMin | src/Tree.java:121-128 | removing the leftmost node leaves the tail of the in-order sequence with correct caches |
| AvlTree.RemoveMinAvl | src/Tree.java:121-128 | removing the leftmost node keeps a valid subtree valid and lowers its height by at most one |
| AvlTree.Balance | src/Tree.java:137-153 | rebalancing preserves the in-order sequence and correct caches, and leaves an already balanced node untouched |
| AvlTree.BalanceRestoresAvl | src/Tree.java:137-153 | on a node whose balanced children differ in height by at most two, rebalancing yields a balanced tree at most one level lower, and is the identity when they differ by at most one |
| AvlTree.LeftRightCase | src/Tree.java:139-144 | left-heavy with a taller inner grandchild: the double rotation balances the node and lowers it by at most one |
| AvlTree.LeftLeftCase | src/Tree.java:139-144 | left-heavy with a taller or equal outer grandchild: the single right rotation balances the node |
| AvlTree.RightLeftCase | src/Tree.java:145-150 | right-heavy with a taller inner grandchild: the double rotation balances the node |
| AvlTree.RightRightCase | src/Tree.java:145-150 | right-heavy with a taller or equal outer grandchild: the single left rotation balances the node |
| AvlTree.RotateRight | src/Tree.java:155-164 | the right rotation preserves the in-order sequence, rearranges exactly the three subtrees, and recomputes correct caches for the two moved nodes |
| AvlTree.RotateLeft | src/Tree.java:166-175 | the mirror image: preserves the in-order sequence and recomputes the caches of the two moved nodes |
| SequenceSteps.JavaRem | src/Sequence.java:81 | Java's remainder for a positive divisor is smaller than the divisor in magnitude and has the sign of the dividend |
| SequenceSteps.JavaRemMod | src/Sequence.java:41 | Java's remainder equals the Euclidean remainder on non-negative dividends, and is that remainder or it minus the divisor on negative ones |
| SequenceSteps.CyclicIndex | src/Sequence.java:98 | the index read for the j-th output element is Java's `(pointer + j) % size`: strictly between -size and size; the Euclidean remainder when pointer + j is non-negative; non-positive when it is negative, and then, if negative, the Euclidean remainder less the size |
| SequenceSteps.AddPosition | src/Sequence.java:31-35 | both branches of the insert position name the slot right after an in-range pointer |
| SequenceSteps.RemovePosition | src/Sequence.java:50-54 | both branches of the remove position name the element cyclically after an in-range pointer |
| SequenceSteps.PointerAfterDelete | src/Sequence.java:62-73 | the pointer after a delete lies strictly between -size and size, and is 0 when the sequence became empty |
| SequenceSteps.ValueAt | src/Sequence.java:77-83 | an empty sequence raises IllegalState; on a non-empty one the read succeeds exactly when Java's remainder of the index by the size is non-negative, and then yields the element at the Euclidean remainder; every failure there is IndexOutOfBounds |
| SequenceSteps.AddStep | src/Sequence.java:26-42 | ADD leaves an empty sequence alone, cannot fail from an in-range pointer, and fails only with IndexOutOfBounds |
| SequenceSteps.DeleteStep | src/Sequence.java:44-75 | DELETE leaves an empty sequence alone, cannot fail from an in-range pointer, and fails only with IndexOutOfBounds |
| SequenceSteps.Step | src/Sequence.java:14-15 | an operation on an empty sequence changes nothing |
| SequenceSteps.Run | src/Sequence.java:85-89 | zero or a negative number of operations changes nothing |
| SequenceSteps.AddStepContents | src/Sequence.java:36-39 | a successful ADD of x grows the sequence by one and adds exactly one copy of x - 1 |
| SequenceSteps.DeleteStepContents | src/Sequence.java:56-62 | a successful DELETE removes exactly one element, the one at the remove position, which is in range |
| SequenceSteps.AddRefinesGrow | src/Sequence.java:26-42 | from an in-range pointer on a non-negative value, ADD is the reference step that inserts after the pointer and moves it by the Euclidean remainder |
| SequenceSteps.PointerAfterDeleteMatches | src/Sequence.java:63-73 | with an in-range pointer and a non-negative removed value, the pointer correction equals the reference one: step back only on the wrap to 0, then move by the removed value |
| SequenceSteps.DeleteRefinesShrink | src/Sequence.java:44-75 | from an in-range pointer removing a non-negative value, DELETE is the reference shrink step |
| SequenceSteps.DeleteRemovesSuccessor | src/Sequence.java:44-75 | from an in-range pointer, whatever the signs of the values, DELETE succeeds, removes exactly the element cyclically after the pointer with the others kept in order, and sets the pointer to Java's `%` of the stepped-back (on the wrap to 0) pointer plus the removed value, or 0 when emptied |
| SequenceSteps.StepDispatch | src/Sequence.java:17-23 | from an in-range pointer, an operation is ADD of the current value exactly when that value is positive and odd, and DELETE otherwise, negative odd values included |
| SequenceSteps.StepRefinesNext | src/Sequence.java:14-24 | with the pointer in range and no negative value, an operation never fails and equals the reference step |
| SequenceSteps.RunRefinesIterate | src/Sequence.java:85-89 | under the same conditions, k operations never fail and equal k reference steps |
| SequenceSteps.RunStopsAtError | src/Sequence.java:85-89 | a run whose first operation throws ends with that exception |
| SequenceSteps.PointerBound | src/Sequence.java:41-72 | starting in range over non-negative values, any number of operations succeeds, leaves the pointer in range (addressing an element, or 0 for an empty sequence), and keeps the values non-negative |
| SequenceSteps.EmptyStaysEmpty | src/Sequence.java:14-15 | any number of operations on an empty sequence changes nothing |
| SequenceSteps.NegativeValueBreaksPointer | src/Sequence.java:66-70 | from [2, -3, 5], one DELETE leaves the pointer at -1 and the next operation throws IndexOutOfBounds |
| SequenceSteps.NegativeOddDeletes | src/Sequence.java:19-22 | from [-3], Java's odd test sends the value to DELETE and empties the sequence, while the reference step would grow it |
| SequenceSteps.OneAddFromOneTwo | src/Sequence.java:26-42 | from [1, 2], one operation gives [1, 0, 2] with the pointer at 1, which reads out as [0, 2, 1] |
| SequenceSteps.OneDeleteFromFour | src/Sequence.java:44-75 | from [4], one operation empties the sequence, which reads out as [] |
| CyclicSpec.Next | src/Sequence.java:14-24 | the reference step keeps the pointer in range and leaves an empty sequence alone |
| CyclicSpec.Successor | src/Sequence.java:50-54 | the index cyclically after p is in range and is (p + 1) mod n |
| CyclicSpec.ShrinkKeepsCurrent | src/Sequence.java:64-68 | after the element cyclically after the pointer is removed, the pointer stepped back only on the wrap to index 0 is in range and still addresses the element it addressed before |
| CyclicSpec.GrowContents | src/Sequence.java:36 | growing adds exactly one copy of v - 1, placed right after the pointer |
| CyclicSpec.ShrinkContents | src/Sequence.java:58 | shrinking removes exactly the element cyclically after the pointer |
| CyclicSpec.NextNonNegative | src/Sequence.java:19-20 | a step from non-negative values yields non-negative values, since only a positive odd v inserts v - 1 |
| CyclicSpec.NonNegativeStays | src/Sequence.java:85-89 | from non-negative values, every value stays non-negative through any number of steps |
| CyclicSpec.EmptyIsFixed | src/Sequence.java:14-15 | the empty configuration is a fixed point of any number of reference steps |
| CyclicSpec.Rotation | src/Sequence.java:91-105 | the read-out has the sequence's length, and its j-th element is the element (p + j) mod n |
| CyclicSequence.NewSequence | src/Sequence.java:5-12 | appending the initial values one by one gives a valid tree holding exactly them, with the pointer at 0 |
| CyclicSequence.DoOperation | src/Sequence.java:14-24 | the tree-backed operation has exactly the outcome of the list-level step on the tree's contents, with a valid tree on success |
| CyclicSequence.DoAdd | src/Sequence.java:26-42 | the tree-backed ADD has exactly the outcome of the list-level ADD |
| CyclicSequence.DoDelete | src/Sequence.java:44-75 | the tree-backed DELETE has exactly the outcome of the list-level DELETE |
| CyclicSequence.GetValueAt | src/Sequence.java:77-83 | reading through the tree gives exactly the list-level read, exceptions included |
| CyclicSequence.PerformKOperations | src/Sequence.java:85-89 | k tree-backed operations have exactly the outcome of k list-level operations, stopping at the first exception |
| CyclicSequence.Render | src/Sequence.java:91-105 | the read-out succeeds exactly when every reduced index is non-negative; it has the tree's length and reads element (pointer + j) % size at position j; with the pointer in range it is the rotation of the contents |
| CyclicSequence.Simulate | src/Main.java:50-55 | for any initial values: it fails exactly when one of the k operations throws (with that exception) or the read-out reaches a negative position; otherwise it reads the final contents at Java's `(pointer + j) % size`; on non-negative values it never fails and yields the rotation of the reference configuration after max(k, 0) steps |

## Left out

- `src/Main.java` is left out except for the composition at lines 50-55, which `CyclicSequence.Simulate` models. The rest is file reading, line parsing, test-directory pairing and string comparison.
- The text of `toCyclicString` is not modelled: no spaces between numbers, and no `""` or `"[]"` for an empty tree. `CyclicSequence.Render` yields the sequence of numbers it prints.
- `Tree.toCyclicString`, the `toString` methods and `Sequence.debug` are formatting and diagnostics.
- Java's 32-bit overflow of `pointer + x`, `x - 1` and the cached fields is not modelled. Integers are unbounded.
- The O(log n) running time and a height bound in terms of the size are not proved.
- In-place mutation and aliasing of `Node` objects are not modelled. Every operation returns a new subtree.
- The state after an exception is not modelled: an `Err` ends the run, as the exception ends the Java program. Only two reads can fail, `getValueAt` (`src/Sequence.java:82`) and the read-out (`src/Sequence.java:99`), and neither changes the state before it throws.
- The null-node branches of the private helpers cannot be reached from the public operations. They are excluded by the helpers' preconditions. This covers `IllegalArgumentException` in `getValueByIndex`, `removeAt(null, …)` returning null, and `getMin` on null.
- `CyclicSequence.Render`: repeated calls agree trivially, because a `Sequence` is an immutable value. No separate statement is made.
- `SequenceSteps.AddStep`, `SequenceSteps.DeleteStep` and `SequenceSteps.Step`: their own contracts give only the empty-sequence case, the no-failure case and the error kind. The rest is stated by separate lemmas:
  - `StepDispatch`: the choice between ADD and DELETE, for values of any sign.
  - `DeleteRemovesSuccessor`: the contents and pointer after DELETE, for values of any sign.
  - `AddRefinesGrow`: the contents and pointer after ADD. ADD is only performed on a positive value.

=== FILE: avl_tree.dfy ===
/**
 An order-statistics AVL tree: a height-balanced binary tree whose in-order
 traversal is the stored sequence. Positions, not values, are the keys.
 Every node caches the height and the size of its subtree.
 */
module AvlTree {
  import opened Errors

  /** A subtree. `Empty` plays the part of a null child reference. */
  datatype Tree = Empty | Node(left: Tree, key: int, height: int, size: int, right: Tree)

  function Max(a: int, b: int): (r: int) { if a >= b then a else b }

  /** Cached height, 0 for the empty subtree. */
  function Height(t: Tree): (r: int) { if t.Empty? then 0 else t.height }

  /** Cached size, 0 for the empty subtree. */
  function Size(t: Tree): (r: int) { if t.Empty? then 0 else t.size }

  /** The abstraction function: the in-order sequence of keys. */
  function Elems(t: Tree): (r: seq<int>)
  {
    match t
    case Empty => []
    case Node(l, k, _, _, r) => Elems(l) + [k] + Elems(r)
  }

  /** Every cached height and size agrees with the children. */
  ghost predicate CachesOk(t: Tree)
  {
    match t
    case Empty => true
    case Node(l, _, h, s, r) =>
      && CachesOk(l) && CachesOk(r)
      && h == 1 + Max(Height(l), Height(r))
      && s == 1 + Size(l) + Size(r)
  }

  /** AVL balance: the children's heights differ by at most one, everywhere. */
  ghost predicate Balanced(t: Tree)
  {
    match t
    case Empty => true
    case Node(l, _, _, _, r) =>
      && Balanced(l) && Balanced(r)
      && -1 <= Height(l) - Height(r) <= 1
  }

  /** The representation invariant of a tree. */
  ghost predicate Valid(t: Tree)
  {
    CachesOk(t) && Balanced(t)
  }

  /* ---------------------------------------------------------------
     Cached fields
     --------------------------------------------------------------- */

  /** Cached heights are never negative, and only the empty subtree has height 0. */
  lemma {:induction false} CachedHeight(t: Tree)
    requires CachesOk(t)
    ensures Height(t) >= 0
    ensures t.Node? <==> Height(t) >= 1
  {
    if t.Node? {
      CachedHeight(t.left);
      CachedHeight(t.right);
    }
  }

  /** The cached size is the length of the in-order sequence. */
  lemma {:induction false} SizeIsLength(t: Tree)
    requires CachesOk(t)
    ensures Size(t) == |Elems(t)|
  {
    if t.Node? {
      SizeIsLength(t.left);
      SizeIsLength(t.right);
    }
  }

  /** A fresh node: the key alone, with no children. */
  function NewNode(key: int): (r: Tree)
    ensures Valid(r)
    ensures Elems(r) == [key]
    ensures Height(r) == 1 && Size(r) == 1
  {
    Node(Empty, key, 1, 1, Empty)
  }

  /** Recomputes the cached height and size of a node from its children. */
  function Update(t: Tree): (r: Tree)
    requires t.Node?
    ensures r.Node? && r.left == t.left && r.key == t.key && r.right == t.right
    ensures Elems(r) == Elems(t)
    ensures CachesOk(t.left) && CachesOk(t.right) ==> CachesOk(r)
    ensures CachesOk(t) ==> r == t
  {
    t.(height := 1 + Max(Height(t.left), Height(t.right)),
       size := 1 + Size(t.left) + Size(t.right))
  }

  /* ---------------------------------------------------------------
     Rotations and rebalancing
     --------------------------------------------------------------- */

  /** Right rotation: the left child becomes the root of the subtree. */
  function RotateRight(y: Tree): (r: Tree)
    requires y.Node? && y.left.Node?
    ensures Elems(r) == Elems(y)
    ensures CachesOk(y.left.left) && CachesOk(y.left.right) && CachesOk(y.right) ==> CachesOk(r)
    ensures r.Node? && r.right.Node?
    ensures r.left == y.left.left && r.right.left == y.left.right && r.right.right == y.right
  {
    var x := y.left;
    var y' := Update(y.(left := x.right));
    Update(x.(right := y'))
  }

  /** Left rotation: the right child becomes the root of the subtree. */
  function RotateLeft(x: Tree): (r: Tree)
    requires x.Node? && x.right.Node?
    ensures Elems(r) == Elems(x)
    ensures CachesOk(x.left) && CachesOk(x.right.left) && CachesOk(x.right.right) ==> CachesOk(r)
    ensures r.Node? && r.left.Node?
    ensures r.right == x.right.right && r.left.right == x.right.left && r.left.left == x.left
  {
    var y := x.right;
    var x' := Update(x.(right := y.left));
    Update(y.(left := x'))
  }

  /** Difference of the children's cached heights. */
  function BalanceFactor(t: Tree): (r: int)
    requires t.Node?
  {
    Height(t.left) - Height(t.right)
  }

  /** Repairs a node whose children's heights differ by two, with the four
      AVL rotation cases (left-left, left-right, right-right, right-left). */
  function Balance(t: Tree): (r: Tree)
    requires t.Node? && CachesOk(t.left) && CachesOk(t.right)
    ensures Elems(r) == Elems(t)
    ensures CachesOk(t) ==> CachesOk(r)
    ensures Balanced(t) ==> r == t
  {
    CachedHeight(t.left);
    CachedHeight(t.right);
    if BalanceFactor(t) > 1 then
      var l := t.left;
      CachedHeight(l.left);
      CachedHeight(l.right);
      if Height(l.left) < Height(l.right) then
        RotateRight(t.(left := RotateLeft(l)))
      else
        RotateRight(t)
    else if BalanceFactor(t) < -1 then
      var r := t.right;
      CachedHeight(r.left);
      CachedHeight(r.right);
      if Height(r.right) < Height(r.left) then
        RotateLeft(t.(right := RotateRight(r)))
      else
        RotateLeft(t)
    else
      t
  }

  /** The left-right case: a double rotation restores balance and lowers
      the height by one. */
  lemma LeftRightCase(t: Tree)
    requires t.Node? && CachesOk(t) && Balanced(t.left) && Balanced(t.right)
    requires BalanceFactor(t) == 2 && t.left.Node? && Height(t.left.left) < Height(t.left.right)
    ensures Balanced(Balance(t))
    ensures Height(t) - 1 <= Height(Balance(t)) <= Height(t)
  {
    var l := t.left;
    CachedHeight(t.right);
    CachedHeight(l.left);
    CachedHeight(l.right);
    var lr := l.right;
    CachedHeight(lr.left);
    CachedHeight(lr.right);
    var r := RotateRight(t.(left := RotateLeft(l)));
    assert Balance(t) == r;
    assert Balanced(r.left) && Height(r.left) == Height(t.right) + 1;
    assert Balanced(r.right) && Height(r.right) == Height(t.right) + 1;
  }

  /** The left-left case: a single rotation restores balance. */
  lemma LeftLeftCase(t: Tree)
    requires t.Node? && CachesOk(t) && Balanced(t.left) && Balanced(t.right)
    requires BalanceFactor(t) == 2 && t.left.Node? && Height(t.left.left) >= Height(t.left.right)
    ensures Balanced(Balance(t))
    ensures Height(t) - 1 <= Height(Balance(t)) <= Height(t)
  {
    var l := t.left;
    CachedHeight(t.right);
    CachedHeight(l.left);
    CachedHeight(l.right);
    var r := RotateRight(t);
    assert Balance(t) == r;
    assert Balanced(r.right);
  }

  /** The right-left case mirrors the left-right one. */
  lemma RightLeftCase(t: Tree)
    requires t.Node? && CachesOk(t) && Balanced(t.left) && Balanced(t.right)
    requires BalanceFactor(t) == -2 && t.right.Node? && Height(t.right.right) < Height(t.right.left)
    ensures Balanced(Balance(t))
    ensures Height(t) - 1 <= Height(Balance(t)) <= Height(t)
  {
    var r := t.right;
    CachedHeight(t.left);
    CachedHeight(r.left);
    CachedHeight(r.right);
    var rl := r.left;
    CachedHeight(rl.left);
    CachedHeight(rl.right);
    var b := RotateLeft(t.(right := RotateRight(r)));
    assert Balance(t) == b;
    assert Balanced(b.left) && Height(b.left) == Height(t.left) + 1;
    assert Balanced(b.right) && Height(b.right) == Height(t.left) + 1;
  }

  /** The right-right case mirrors the left-left one. */
  lemma RightRightCase(t: Tree)
    requires t.Node? && CachesOk(t) && Balanced(t.left) && Balanced(t.right)
    requires BalanceFactor(t) == -2 && t.right.Node? && Height(t.right.right) >= Height(t.right.left)
    ensures Balanced(Balance(t))
    ensures Height(t) - 1 <= Height(Balance(t)) <= Height(t)
  {
    var r := t.right;
    CachedHeight(t.left);
    CachedHeight(r.left);
    CachedHeight(r.right);
    var b := RotateLeft(t);
    assert Balance(t) == b;
    assert Balanced(b.left);
  }

  /** After one child's height moved by one, `Balance` restores the AVL
      invariant and leaves the height equal or one lower. */
  lemma BalanceRestoresAvl(t: Tree)
    requires t.Node? && CachesOk(t) && Balanced(t.left) && Balanced(t.right)
    requires -2 <= BalanceFactor(t) <= 2
    ensures Balanced(Balance(t))
    ensures -1 <= BalanceFactor(t) <= 1 ==> Balance(t) == t
    ensures Height(t) - 1 <= Height(Balance(t)) <= Height(t)
  {
    CachedHeight(t.left);
    CachedHeight(t.right);
    if BalanceFactor(t) == 2 {
      if Height(t.left.left) < Height(t.left.right) {
        LeftRightCase(t);
      } else {
        LeftLeftCase(t);
      }
    } else if BalanceFactor(t) == -2 {
      if Height(t.right.right) < Height(t.right.left) {
        RightLeftCase(t);
      } else {
        RightRightCase(t);
      }
    }
  }

  /* ---------------------------------------------------------------
     Positional operations on a subtree
     --------------------------------------------------------------- */

  /** The key at in-order position `i`, found by comparing `i` with the
      cached size of the left subtree. */
  function ValueByIndex(t: Tree, i: int): (v: int)
    requires CachesOk(t) && 0 <= i < |Elems(t)|
    ensures v == Elems(t)[i]
    decreases t
  {
    SizeIsLength(t.left);
    var leftSize := Size(t.left);
    if i < leftSize then ValueByIndex(t.left, i)
    else if i == leftSize then t.key
    else ValueByIndex(t.right, i - leftSize - 1)
  }

  /** Inserts `k` so that it becomes in-order position `i`, then updates and
      rebalances every node on the way back up. */
  function InsertAtNode(t: Tree, i: int, k: int): (r: Tree)
    requires CachesOk(t) && 0 <= i <= |Elems(t)|
    ensures CachesOk(r) && r.Node?
    ensures Elems(r) == Elems(t)[..i] + [k] + Elems(t)[i..]
    ensures Balanced(t) ==> Balanced(r) && Height(t) <= Height(r) <= Height(t) + 1
    decreases t
  {
    if t.Empty? then NewNode(k)
    else
      SizeIsLength(t.left);
      var leftSize := Size(t.left);
      if i <= leftSize then
        var l := InsertAtNode(t.left, i, k);
        InsertedLeft(t, i, k, l);
        GrownLeft(t, l);
        Balance(Update(t.(left := l)))
      else
        var r := InsertAtNode(t.right, i - leftSize - 1, k);
        InsertedRight(t, i, k, r);
        GrownRight(t, r);
        Balance(Update(t.(right := r)))
  }

  /** The first in-order key of a non-empty subtree: its leftmost node. */
  function GetMin(t: Tree): (v: int)
    requires t.Node?
    ensures |Elems(t)| > 0 && v == Elems(t)[0]
  {
    if t.left.Empty? then t.key else GetMin(t.left)
  }

  /** Removes the leftmost node of a non-empty subtree. */
  function RemoveMin(t: Tree): (r: Tree)
    requires t.Node? && CachesOk(t)
    ensures CachesOk(r)
    ensures |Elems(t)| > 0 && Elems(r) == Elems(t)[1..]
  {
    if t.left.Empty? then t.right
    else
      var l := RemoveMin(t.left);
      Balance(Update(t.(left := l)))
  }

  /** Removes the node at in-order position `i`. A node with two children
      takes its in-order successor's key, and the successor is removed from
      the right subtree instead. */
  function RemoveAtNode(t: Tree, i: int): (r: Tree)
    requires CachesOk(t) && 0 <= i < |Elems(t)|
    ensures CachesOk(r)
    ensures Elems(r) == Elems(t)[..i] + Elems(t)[i + 1..]
    decreases t
  {
    SizeIsLength(t.left);
    var leftSize := Size(t.left);
    if i < leftSize then
      var l := RemoveAtNode(t.left, i);
      DeletedLeft(t, i, l);
      Balance(Update(t.(left := l)))
    else if i > leftSize then
      var r := RemoveAtNode(t.right, i - leftSize - 1);
      DeletedRight(t, i, r);
      Balance(Update(t.(right := r)))
    else
      DeleteRootSplit(Elems(t.left), t.key, Elems(t.right));
      RemoveRoot(t)
  }

  /** Replacing the left subtree, then updating and rebalancing, keeps the
      caches right and the in-order sequence of the three parts. */
  lemma RebuildLeft(t: Tree, l: Tree)
    requires t.Node? && CachesOk(l) && CachesOk(t.right)
    ensures CachesOk(Balance(Update(t.(left := l))))
    ensures Elems(Balance(Update(t.(left := l)))) == Elems(l) + [t.key] + Elems(t.right)
  {
  }

  /** The mirror image of `RebuildLeft`. */
  lemma RebuildRight(t: Tree, r: Tree)
    requires t.Node? && CachesOk(t.left) && CachesOk(r)
    ensures CachesOk(Balance(Update(t.(right := r))))
    ensures Elems(Balance(Update(t.(right := r)))) == Elems(t.left) + [t.key] + Elems(r)
  {
  }

  /** An insertion into the left subtree is an insertion into the node. */
  lemma InsertedLeft(t: Tree, i: int, k: int, l: Tree)
    requires t.Node? && CachesOk(t) && CachesOk(l) && 0 <= i <= |Elems(t.left)|
    requires Elems(l) == Elems(t.left)[..i] + [k] + Elems(t.left)[i..]
    ensures CachesOk(Balance(Update(t.(left := l))))
    ensures Elems(Balance(Update(t.(left := l)))) == Elems(t)[..i] + [k] + Elems(t)[i..]
  {
    RebuildLeft(t, l);
    InsertLeftSplit(Elems(t.left), t.key, Elems(t.right), i, k);
  }

  /** An insertion into the right subtree is an insertion into the node. */
  lemma InsertedRight(t: Tree, i: int, k: int, r: Tree)
    requires t.Node? && CachesOk(t) && CachesOk(r)
    requires |Elems(t.left)| < i <= |Elems(t)|
    requires var j := i - |Elems(t.left)| - 1;
             Elems(r) == Elems(t.right)[..j] + [k] + Elems(t.right)[j..]
    ensures CachesOk(Balance(Update(t.(right := r))))
    ensures Elems(Balance(Update(t.(right := r)))) == Elems(t)[..i] + [k] + Elems(t)[i..]
  {
    RebuildRight(t, r);
    InsertRightSplit(Elems(t.left), t.key, Elems(t.right), i, k);
  }

  /** A removal from the left subtree is a removal from the node. */
  lemma DeletedLeft(t: Tree, i: int, l: Tree)
    requires t.Node? && CachesOk(t) && CachesOk(l) && 0 <= i < |Elems(t.left)|
    requires Elems(l) == Elems(t.left)[..i] + Elems(t.left)[i + 1..]
    ensures CachesOk(Balance(Update(t.(left := l))))
    ensures Elems(Balance(Update(t.(left := l)))) == Elems(t)[..i] + Elems(t)[i + 1..]
  {
    RebuildLeft(t, l);
    DeleteLeftSplit(Elems(t.left), t.key, Elems(t.right), i);
  }

  /** A removal from the right subtree is a removal from the node. */
  lemma DeletedRight(t: Tree, i: int, r: Tree)
    requires t.Node? && CachesOk(t) && CachesOk(r)
    requires |Elems(t.left)| < i < |Elems(t)|
    requires var j := i - |Elems(t.left)| - 1;
             Elems(r) == Elems(t.right)[..j] + Elems(t.right)[j + 1..]
    ensures CachesOk(Balance(Update(t.(right := r))))
    ensures Elems(Balance(Update(t.(right := r)))) == Elems(t)[..i] + Elems(t)[i + 1..]
  {
    RebuildRight(t, r);
    DeleteRightSplit(Elems(t.left), t.key, Elems(t.right), i);
  }

  /** The node itself is removed: a node with at most one child is replaced
      by that child; otherwise it takes its in-order successor's key and the
      successor is removed from the right subtree. The surviving node is then
      updated and rebalanced. */
  function RemoveRoot(t: Tree): (r: Tree)
    requires t.Node? && CachesOk(t)
    ensures CachesOk(r)
    ensures Elems(r) == Elems(t.left) + Elems(t.right)
  {
    if t.left.Empty? || t.right.Empty? then
      var child := if t.left.Node? then t.left else t.right;
      assert CachesOk(child);
      assert Elems(t.left) + Elems(t.right) == Elems(child);
      if child.Empty? then child
      else
        Balance(Update(child))
    else
      SuccessorPromoted(t);
      Balance(Update(t.(key := GetMin(t.right), right := RemoveMin(t.right))))
  }

  /** The successor's key moves into the node and the successor leaves the
      right subtree: the in-order sequence loses only the node's own key. */
  lemma SuccessorPromoted(t: Tree)
    requires t.Node? && CachesOk(t) && t.right.Node?
    ensures var b := Balance(Update(t.(key := GetMin(t.right), right := RemoveMin(t.right))));
            CachesOk(b) && Elems(b) == Elems(t.left) + Elems(t.right)
  {
    var successor := GetMin(t.right);
    var r := RemoveMin(t.right);
    var u := t.(key := successor);
    assert u.(right := r) == t.(key := successor, right := r);
    RebuildRight(u, r);
    SuccessorSplit(Elems(t.left), Elems(t.right), successor, Elems(r));
  }

  /* ---------------------------------------------------------------
     The AVL invariant is preserved
     --------------------------------------------------------------- */

  /** Replacing the left child by a balanced subtree at most one lower keeps
      the node balanced after `Update` and `Balance`, at most one lower. */
  lemma ShrunkLeft(t: Tree, l: Tree)
    requires t.Node? && Valid(t) && Valid(l)
    requires Height(t.left) - 1 <= Height(l) <= Height(t.left)
    ensures Valid(Balance(Update(t.(left := l))))
    ensures Height(t) - 1 <= Height(Balance(Update(t.(left := l)))) <= Height(t)
  {
    CachedHeight(l);
    CachedHeight(t.left);
    CachedHeight(t.right);
    BalanceRestoresAvl(Update(t.(left := l)));
  }

  lemma ShrunkRight(t: Tree, r: Tree)
    requires t.Node? && Valid(t) && Valid(r)
    requires Height(t.right) - 1 <= Height(r) <= Height(t.right)
    ensures Valid(Balance(Update(t.(right := r))))
    ensures Height(t) - 1 <= Height(Balance(Update(t.(right := r)))) <= Height(t)
  {
    CachedHeight(r);
    CachedHeight(t.left);
    CachedHeight(t.right);
    BalanceRestoresAvl(Update(t.(right := r)));
  }

  /** Replacing the left child by a subtree that is balanced and at most one
      higher whenever the old child was balanced keeps a balanced node
      balanced after `Update` and `Balance`, at most one higher. */
  lemma GrownLeft(t: Tree, l: Tree)
    requires t.Node? && CachesOk(t) && CachesOk(l)
    requires Balanced(t.left) ==> Balanced(l) && Height(t.left) <= Height(l) <= Height(t.left) + 1
    ensures Balanced(t) ==>
              var b := Balance(Update(t.(left := l)));
              Balanced(b) && Height(t) <= Height(b) <= Height(t) + 1
  {
    if Balanced(t) {
      CachedHeight(l);
      CachedHeight(t.left);
      CachedHeight(t.right);
      BalanceRestoresAvl(Update(t.(left := l)));
    }
  }

  /** The same for the right child. */
  lemma GrownRight(t: Tree, r: Tree)
    requires t.Node? && CachesOk(t) && CachesOk(r)
    requires Balanced(t.right) ==> Balanced(r) && Height(t.right) <= Height(r) <= Height(t.right) + 1
    ensures Balanced(t) ==>
              var b := Balance(Update(t.(right := r)));
              Balanced(b) && Height(t) <= Height(b) <= Height(t) + 1
  {
    if Balanced(t) {
      CachedHeight(r);
      CachedHeight(t.left);
      CachedHeight(t.right);
      BalanceRestoresAvl(Update(t.(right := r)));
    }
  }

  /** Removing the leftmost node keeps the tree balanced and lowers its height
      by at most one. */
  lemma {:induction false} RemoveMinAvl(t: Tree)
    requires t.Node? && Valid(t)
    ensures Valid(RemoveMin(t))
    ensures Height(t) - 1 <= Height(RemoveMin(t)) <= Height(t)
    decreases t
  {
    if t.left.Node? {
      RemoveMinAvl(t.left);
      ShrunkLeft(t, RemoveMin(t.left));
    } else {
      CachedHeight(t.right);
    }
  }

  /** Removing a subtree's root keeps it balanced and lowers its height by at
      most one. */
  lemma RemoveRootAvl(t: Tree)
    requires t.Node? && Valid(t)
    ensures Valid(RemoveRoot(t))
    ensures Height(t) - 1 <= Height(RemoveRoot(t)) <= Height(t)
  {
    CachedHeight(t.left);
    CachedHeight(t.right);
    if t.left.Node? && t.right.Node? {
      RemoveMinAvl(t.right);
      ShrunkRight(t.(key := GetMin(t.right)), RemoveMin(t.right));
    }
  }

  /** Removal keeps the tree balanced and lowers its height by at most one. */
  lemma {:induction false} RemoveAtNodeAvl(t: Tree, i: int)
    requires Valid(t) && 0 <= i < |Elems(t)|
    ensures Valid(RemoveAtNode(t, i))
    ensures Height(t) - 1 <= Height(RemoveAtNode(t, i)) <= Height(t)
    decreases t
  {
    SizeIsLength(t.left);
    if i < Size(t.left) {
      RemoveAtNodeAvl(t.left, i);
      ShrunkLeft(t, RemoveAtNode(t.left, i));
    } else if i > Size(t.left) {
      var j := i - Size(t.left) - 1;
      RemoveAtNodeAvl(t.right, j);
      ShrunkRight(t, RemoveAtNode(t.right, j));
    } else {
      RemoveRootAvl(t);
    }
  }

  /* ---------------------------------------------------------------
     Public operations: positions are checked, out-of-range ones raise
     IndexOutOfBounds
     --------------------------------------------------------------- */

  /** The element at position `i`. */
  method Get(t: Tree, i: int) returns (r: Result<int>)
    requires Valid(t)
    ensures r.Ok? <==> 0 <= i < |Elems(t)|
    ensures r.Ok? ==> r.value == Elems(t)[i]
    ensures r.Err? ==> r.error == IndexOutOfBounds
  {
    SizeIsLength(t);
    if i < 0 || i >= Size(t) {
      return Err(IndexOutOfBounds);
    }
    r := Ok(ValueByIndex(t, i));
  }

  /** Inserts `k` so that it becomes position `i`; `i == |Elems(t)|` appends. */
  method InsertAt(t: Tree, i: int, k: int) returns (r: Result<Tree>)
    requires Valid(t)
    ensures r.Ok? <==> 0 <= i <= |Elems(t)|
    ensures r.Ok? ==> Valid(r.value) && Elems(r.value) == Elems(t)[..i] + [k] + Elems(t)[i..]
    ensures r.Err? ==> r.error == IndexOutOfBounds
  {
    SizeIsLength(t);
    if i < 0 || i > Size(t) {
      return Err(IndexOutOfBounds);
    }
    r := Ok(InsertAtNode(t, i, k));
  }

  /** Removes the element at position `i` and returns the new tree together
      with the removed element, which is read before the removal. */
  method RemoveAt(t: Tree, i: int) returns (r: Result<(Tree, int)>)
    requires Valid(t)
    ensures r.Ok? <==> 0 <= i < |Elems(t)|
    ensures r.Ok? ==> Valid(r.value.0) && r.value.1 == Elems(t)[i]
    ensures r.Ok? ==> Elems(r.value.0) == Elems(t)[..i] + Elems(t)[i + 1..]
    ensures r.Err? ==> r.error == IndexOutOfBounds
  {
    SizeIsLength(t);
    if i < 0 || i >= Size(t) {
      return Err(IndexOutOfBounds);
    }
    var value := Get(t, i);
    RemoveAtNodeAvl(t, i);
    r := Ok((RemoveAtNode(t, i), value.value));
  }

  /* ---------------------------------------------------------------
     Sequence algebra for the in-order splits
     --------------------------------------------------------------- */

  lemma InsertLeftSplit(a: seq<int>, x: int, b: seq<int>, i: int, k: int)
    requires 0 <= i <= |a|
    ensures (a[..i] + [k] + a[i..]) + [x] + b == (a + [x] + b)[..i] + [k] + (a + [x] + b)[i..]
  {
    assert (a + [x] + b)[..i] == a[..i];
    assert (a + [x] + b)[i..] == a[i..] + [x] + b;
  }

  lemma InsertRightSplit(a: seq<int>, x: int, b: seq<int>, i: int, k: int)
    requires |a| < i <= |a| + 1 + |b|
    ensures a + [x] + (b[..i - |a| - 1] + [k] + b[i - |a| - 1..])
         == (a + [x] + b)[..i] + [k] + (a + [x] + b)[i..]
  {
    var j := i - |a| - 1;
    assert (a + [x] + b)[..i] == a + [x] + b[..j];
    assert (a + [x] + b)[i..] == b[j..];
  }

  lemma DeleteLeftSplit(a: seq<int>, x: int, b: seq<int>, i: int)
    requires 0 <= i < |a|
    ensures (a[..i] + a[i + 1..]) + [x] + b == (a + [x] + b)[..i] + (a + [x] + b)[i + 1..]
  {
    assert (a + [x] + b)[..i] == a[..i];
    assert (a + [x] + b)[i + 1..] == a[i + 1..] + [x] + b;
  }

  lemma DeleteRightSplit(a: seq<int>, x: int, b: seq<int>, i: int)
    requires |a| < i < |a| + 1 + |b|
    ensures a + [x] + (b[..i - |a| - 1] + b[i - |a| - 1 + 1..])
         == (a + [x] + b)[..i] + (a + [x] + b)[i + 1..]
  {
    var j := i - |a| - 1;
    assert (a + [x] + b)[..i] == a + [x] + b[..j];
    assert (a + [x] + b)[i + 1..] == b[j + 1..];
  }

  lemma DeleteRootSplit(a: seq<int>, x: int, b: seq<int>)
    ensures a + b == (a + [x] + b)[..|a|] + (a + [x] + b)[|a| + 1..]
  {
    assert (a + [x] + b)[..|a|] == a;
    assert (a + [x] + b)[|a| + 1..] == b;
  }

  lemma SuccessorSplit(a: seq<int>, b: seq<int>, x: int, rest: seq<int>)
    requires |b| > 0 && x == b[0] && rest == b[1..]
    ensures a + [x] + rest == a + b
  {
    assert b == [x] + rest;
  }
}

=== FILE: cyclic_sequence.dfy ===
/**
 The simulator: one order-statistics tree and a pointer into its in-order
 sequence. Each operation is a method over the tree whose contract says it
 computes exactly the list-level step of `SequenceSteps` on the sequence
 the tree holds; every exception of the Java program is an `Err` result.
 */
module CyclicSequence {
  import opened Errors
  import opened AvlTree
  import opened CyclicSpec
  import opened SequenceSteps

  /** The tree and the 0-based pointer. */
  datatype Sequence = Sequence(tree: Tree, pointer: int)

  /** The configuration a simulator state stands for. */
  function View(s: Sequence): (c: Config)
  {
    Config(Elems(s.tree), s.pointer)
  }

  /** `r` is the tree-backed outcome of the list-level outcome `m`: a
      success holds a valid tree for the successful configuration, and a
      failure is the same exception. */
  ghost predicate Implements(r: Result<Sequence>, m: Result<Config>)
  {
    match r
    case Ok(s) => m.Ok? && Valid(s.tree) && View(s) == m.value
    case Err(e) => m == Err(e)
  }

  /** Builds the tree by appending the initial values in order; the pointer
      starts on the first one. */
  method NewSequence(init: seq<int>) returns (s: Sequence)
    ensures Valid(s.tree)
    ensures View(s) == Config(init, 0)
  {
    var t := Empty;
    for j := 0 to |init|
      invariant Valid(t)
      invariant Elems(t) == init[..j]
    {
      SizeIsLength(t);
      var ins := InsertAt(t, Size(t), init[j]);
      t := ins.value;
      assert init[..j + 1] == init[..j] + [init[j]];
    }
    assert init[..|init|] == init;
    s := Sequence(t, 0);
  }

  /** The value at `idx` reduced by the size with Java's `%`. */
  method GetValueAt(s: Sequence, idx: int) returns (r: Result<int>)
    requires Valid(s.tree)
    ensures r == ValueAt(View(s), idx)
  {
    SizeIsLength(s.tree);
    if Size(s.tree) == 0 {
      return Err(IllegalState);
    }
    r := Get(s.tree, JavaRem(idx, Size(s.tree)));
  }

  /** ADD for the value `x`: insert `x - 1` right after the pointer, then
      move the pointer `x` places by the new size. */
  method DoAdd(s: Sequence, x: int) returns (r: Result<Sequence>)
    requires Valid(s.tree)
    ensures Implements(r, AddStep(View(s), x))
  {
    SizeIsLength(s.tree);
    var sz := Size(s.tree);
    if sz == 0 {
      return Ok(s);
    }
    var ins := InsertAt(s.tree, AddPosition(s.pointer, sz), x - 1);
    if ins.Err? {
      return Err(ins.error);
    }
    var t := ins.value;
    SizeIsLength(t);
    r := Ok(Sequence(t, JavaRem(s.pointer + x, Size(t))));
  }

  /** DELETE: reduce the pointer, remove the element cyclically after it,
      and move the pointer by the removed value; an emptied tree resets the
      pointer to 0. */
  method DoDelete(s: Sequence) returns (r: Result<Sequence>)
    requires Valid(s.tree)
    ensures Implements(r, DeleteStep(View(s)))
  {
    SizeIsLength(s.tree);
    var sz := Size(s.tree);
    if sz == 0 {
      return Ok(s);
    }
    var p := JavaRem(s.pointer, sz);
    var removePos := RemovePosition(p, sz);
    var x := Get(s.tree, removePos);
    if x.Err? {
      return Err(x.error);
    }
    var del := RemoveAt(s.tree, removePos);
    assert del.Ok?;
    var t := del.value.0;
    SizeIsLength(t);
    r := Ok(Sequence(t, PointerAfterDelete(p, removePos, x.value, Size(t))));
  }

  /** One operation: ADD when the value under the pointer is odd in Java's
      sense, DELETE otherwise; nothing on an empty tree. */
  method DoOperation(s: Sequence) returns (r: Result<Sequence>)
    requires Valid(s.tree)
    ensures Implements(r, Step(View(s)))
  {
    SizeIsLength(s.tree);
    if Size(s.tree) == 0 {
      return Ok(s);
    }
    var v := GetValueAt(s, s.pointer);
    if v.Err? {
      return Err(v.error);
    }
    if JavaRem(v.value, 2) == 1 {
      r := DoAdd(s, v.value);
    } else {
      r := DoDelete(s);
    }
  }

  /** `k` operations in a row; the first exception ends the run. */
  method PerformKOperations(s: Sequence, k: int) returns (r: Result<Sequence>)
    requires Valid(s.tree)
    ensures Implements(r, Run(View(s), k))
  {
    if k <= 0 {
      return Ok(s);
    }
    var cur := s;
    for i := 0 to k
      invariant Valid(cur.tree)
      invariant Run(View(s), k) == Run(View(cur), k - i)
    {
      var next := Advance(cur, k - i);
      if next.Err? {
        return Err(next.error);
      }
      cur := next.value;
    }
    r := Ok(cur);
  }

  /** One operation inside a run with `n` operations left. */
  method Advance(s: Sequence, n: int) returns (r: Result<Sequence>)
    requires Valid(s.tree) && n > 0
    ensures r.Ok? ==> Valid(r.value.tree) && Run(View(s), n) == Run(View(r.value), n - 1)
    ensures r.Err? ==> Run(View(s), n) == Err(r.error)
  {
    r := DoOperation(s);
    if r.Err? {
      RunStopsAtError(View(s), n, r.error);
    } else {
      RunAfterStep(View(s), n, View(r.value));
    }
  }

  /** The contents read from the pointer, wrapping around with Java's `%`,
      one element per position; a position made negative raises
      IndexOutOfBounds. */
  method Render(s: Sequence) returns (r: Result<seq<int>>)
    requires Valid(s.tree)
    ensures |Elems(s.tree)| == 0 ==> r == Ok([])
    ensures |Elems(s.tree)| > 0 ==>
              (r.Ok? <==> forall j :: 0 <= j < |Elems(s.tree)| ==>
                            CyclicIndex(s.pointer, j, |Elems(s.tree)|) >= 0)
    ensures r.Ok? ==> |r.value| == |Elems(s.tree)|
    ensures r.Ok? ==> forall j :: 0 <= j < |r.value| ==>
                        r.value[j] == Elems(s.tree)[CyclicIndex(s.pointer, j, |Elems(s.tree)|)]
    ensures r.Err? ==> r.error == IndexOutOfBounds
    ensures PointerInRange(View(s)) ==> r == Ok(Rotation(Elems(s.tree), s.pointer))
  {
    SizeIsLength(s.tree);
    var sz := Size(s.tree);
    if sz == 0 {
      return Ok([]);
    }
    var out: seq<int> := [];
    for i := 0 to sz
      invariant |out| == i
      invariant forall j :: 0 <= j < i ==> CyclicIndex(s.pointer, j, sz) >= 0
      invariant forall j :: 0 <= j < i ==> out[j] == Elems(s.tree)[CyclicIndex(s.pointer, j, sz)]
    {
      var v := Get(s.tree, CyclicIndex(s.pointer, i, sz));
      if v.Err? {
        return Err(v.error);
      }
      out := out + [v.value];
    }
    r := Ok(out);
    if PointerInRange(View(s)) {
      var rot := Rotation(Elems(s.tree), s.pointer);
      forall j | 0 <= j < sz
        ensures out[j] == rot[j]
      {
        JavaRemMod(s.pointer + j, sz);
      }
      assert out == rot;
    }
  }

  /** The whole program: build, run `k` operations (none when `k` is
      negative), render. It fails exactly when an operation throws or the
      read-out reaches a negative position; otherwise it reads the final
      contents from the pointer with Java's `%`. On a non-negative initial
      sequence it never fails and yields the reference configuration after
      that many steps, read from its pointer. */
  method Simulate(init: seq<int>, k: int) returns (r: Result<seq<int>>)
    ensures var m := Run(Config(init, 0), k);
            r.Ok? <==> m.Ok? && Readable(m.value)
    ensures var m := Run(Config(init, 0), k);
            m.Err? ==> r == Err(m.error)
    ensures var m := Run(Config(init, 0), k);
            r.Ok? ==> |r.value| == |m.value.xs|
                      && forall j :: 0 <= j < |r.value| ==>
                           r.value[j] == m.value.xs[CyclicIndex(m.value.p, j, |m.value.xs|)]
    ensures NonNegative(init) ==>
              var c := Iterate(Config(init, 0), if k < 0 then 0 else k);
              PointerInRange(c) && r == Ok(Rotation(c.xs, c.p))
  {
    var s := NewSequence(init);
    var run := PerformKOperations(s, k);
    if NonNegative(init) {
      var steps: nat := if k < 0 then 0 else k;
      assert Run(Config(init, 0), k) == Run(Config(init, 0), steps);
      RunRefinesIterate(Config(init, 0), steps);
      PointerBound(Config(init, 0), steps);
    }
    if run.Err? {
      return Err(run.error);
    }
    r := Render(run.value);
  }
}

=== FILE: cyclic_spec.dfy ===
/**
 The cyclic-pointer simulation stated directly on sequences: a configuration
 is the current contents and a pointer into them. This is the reference the
 tree-backed simulator is proved against. Remainders here are Euclidean, so
 they never go negative.
 */
module CyclicSpec {
  import opened ModArith

  /** The contents, in order, and the index of the current element. */
  datatype Config = Config(xs: seq<int>, p: int)

  /** The pointer addresses an element, or is 0 when there is none. */
  predicate PointerInRange(c: Config)
  {
    if |c.xs| == 0 then c.p == 0 else 0 <= c.p < |c.xs|
  }

  /** No value is negative: the first is not, nor are the rest. */
  predicate NonNegative(xs: seq<int>)
  {
    |xs| == 0 || (xs[0] >= 0 && NonNegative(xs[1..]))
  }

  /** `NonNegative` holds exactly when every element is at least 0. */
  lemma {:induction false} NonNegativeIndex(xs: seq<int>)
    ensures NonNegative(xs) <==> forall j :: 0 <= j < |xs| ==> xs[j] >= 0
  {
    if |xs| > 0 {
      NonNegativeIndex(xs[1..]);
      assert forall j :: 1 <= j < |xs| ==> xs[j] == xs[1..][j - 1];
    }
  }

  /** One step: an odd current value grows the sequence, an even one shrinks
      it. */
  function Next(c: Config): (d: Config)
    requires PointerInRange(c)
    ensures PointerInRange(d)
    ensures |c.xs| == 0 ==> d == c
  {
    if |c.xs| == 0 then c
    else if c.xs[c.p] % 2 == 1 then Grow(c)
    else Shrink(c)
  }

  /** An odd current value `v` inserts `v - 1` right after the pointer and
      moves the pointer `v` places around the grown sequence. */
  function Grow(c: Config): (d: Config)
    requires PointerInRange(c) && |c.xs| > 0
    ensures PointerInRange(d)
  {
    var v := c.xs[c.p];
    Config(c.xs[..c.p + 1] + [v - 1] + c.xs[c.p + 1..], Mod(c.p + v, |c.xs| + 1))
  }

  /** An even current value removes the element cyclically after the
      pointer, keeps the pointer on the same element, and moves it as many
      places as the removed value says around the shrunk sequence. */
  function Shrink(c: Config): (d: Config)
    requires PointerInRange(c) && |c.xs| > 0
    ensures PointerInRange(d)
  {
    var n := |c.xs|;
    var q := Successor(c.p, n);
    var ys := c.xs[..q] + c.xs[q + 1..];
    if n == 1 then Config(ys, 0)
    else Config(ys, Mod((if q == 0 then c.p - 1 else c.p) + c.xs[q], n - 1))
  }

  /** Removing the element after the pointer shifts the current element one
      place down only when the removed one was before it, at index 0; the
      pointer stepped back in that case still finds the same element. */
  lemma ShrinkKeepsCurrent(c: Config)
    requires PointerInRange(c) && |c.xs| > 1
    ensures var n := |c.xs|;
            var q := Successor(c.p, n);
            var p' := if q == 0 then c.p - 1 else c.p;
            0 <= p' < n - 1 && (c.xs[..q] + c.xs[q + 1..])[p'] == c.xs[c.p]
  {
    var n := |c.xs|;
    var q := Successor(c.p, n);
    var ys := c.xs[..q] + c.xs[q + 1..];
    if q == 0 {
      assert ys == c.xs[1..];
    } else {
      assert ys[c.p] == c.xs[..q][c.p];
    }
  }

  /** The index cyclically after `p` among `n` elements. */
  function Successor(p: int, n: int): (q: int)
    requires 0 <= p < n
    ensures 0 <= q < n && q == Mod(p + 1, n)
  {
    if p + 1 == n then 0 else p + 1
  }

  /** Growing adds exactly one copy of `v - 1` and puts it right after the
      pointer, where `v` is the current value. */
  lemma GrowContents(c: Config)
    requires PointerInRange(c) && |c.xs| > 0
    ensures |Grow(c).xs| == |c.xs| + 1
    ensures Grow(c).xs[c.p + 1] == c.xs[c.p] - 1
    ensures multiset(Grow(c).xs) == multiset(c.xs) + multiset{c.xs[c.p] - 1}
  {
    assert c.xs == c.xs[..c.p + 1] + c.xs[c.p + 1..];
  }

  /** Shrinking removes exactly one element: the one cyclically after the
      pointer. */
  lemma ShrinkContents(c: Config)
    requires PointerInRange(c) && |c.xs| > 0
    ensures |Shrink(c).xs| == |c.xs| - 1
    ensures multiset(Shrink(c).xs) == multiset(c.xs) - multiset{c.xs[Successor(c.p, |c.xs|)]}
  {
    var q := Successor(c.p, |c.xs|);
    assert c.xs == c.xs[..q] + [c.xs[q]] + c.xs[q + 1..];
  }

  /** A step from non-negative values yields non-negative values: a grown
      value `v - 1` comes from an odd, hence positive, `v`. */
  lemma NextNonNegative(c: Config)
    requires PointerInRange(c) && NonNegative(c.xs)
    ensures NonNegative(Next(c).xs)
  {
    NonNegativeIndex(c.xs);
    if |c.xs| > 0 {
      if c.xs[c.p] % 2 == 1 {
        GrowNonNegative(c);
      } else {
        ShrinkNonNegative(c);
      }
    }
  }

  lemma GrowNonNegative(c: Config)
    requires PointerInRange(c) && |c.xs| > 0 && c.xs[c.p] % 2 == 1
    requires forall j :: 0 <= j < |c.xs| ==> c.xs[j] >= 0
    ensures NonNegative(Grow(c).xs)
  {
    var ys := Grow(c).xs;
    assert ys == c.xs[..c.p + 1] + [c.xs[c.p] - 1] + c.xs[c.p + 1..];
    assert forall j :: 0 <= j < |ys| ==> ys[j] >= 0;
    NonNegativeIndex(ys);
  }

  lemma ShrinkNonNegative(c: Config)
    requires PointerInRange(c) && |c.xs| > 0
    requires forall j :: 0 <= j < |c.xs| ==> c.xs[j] >= 0
    ensures NonNegative(Shrink(c).xs)
  {
    var ys := Shrink(c).xs;
    var q := Successor(c.p, |c.xs|);
    assert ys == c.xs[..q] + c.xs[q + 1..];
    assert forall j :: 0 <= j < |ys| ==> ys[j] >= 0;
    NonNegativeIndex(ys);
  }

  /** Starting from non-negative values, every value stays non-negative. */
  lemma {:induction false} NonNegativeStays(c: Config, k: nat)
    requires PointerInRange(c) && NonNegative(c.xs)
    ensures NonNegative(Iterate(c, k).xs)
    decreases k
  {
    if k > 0 {
      var d := FirstStepNonNegative(c, k);
      NonNegativeStays(d, k - 1);
    }
  }

  /** The first of `k` steps keeps the values non-negative. */
  lemma FirstStepNonNegative(c: Config, k: nat) returns (d: Config)
    requires PointerInRange(c) && NonNegative(c.xs) && k > 0
    ensures PointerInRange(d) && NonNegative(d.xs)
    ensures Iterate(c, k) == Iterate(d, k - 1)
  {
    d := Next(c);
    NextNonNegative(c);
    IterateUnfold(c, k);
  }

  /** `k` steps in a row. */
  function Iterate(c: Config, k: nat): (d: Config)
    requires PointerInRange(c)
    ensures PointerInRange(d)
    decreases k
  {
    if k == 0 then c else Iterate(Next(c), k - 1)
  }

  lemma IterateUnfold(c: Config, k: nat)
    requires PointerInRange(c) && k > 0
    ensures Iterate(c, k) == Iterate(Next(c), k - 1)
  {
  }

  /** An empty configuration never changes. */
  lemma {:induction false} EmptyIsFixed(k: nat)
    ensures Iterate(Config([], 0), k) == Config([], 0)
  {
    if k > 0 {
      EmptyIsFixed(k - 1);
    }
  }

  /** The contents read cyclically from the pointer. */
  function Rotation(xs: seq<int>, p: int): (r: seq<int>)
    requires PointerInRange(Config(xs, p))
    ensures |r| == |xs|
    ensures forall j :: 0 <= j < |xs| ==> r[j] == xs[Mod(p + j, |xs|)]
  {
    if |xs| == 0 then []
    else
      var r := xs[p..] + xs[..p];
      forall j | 0 <= j < |xs|
        ensures r[j] == xs[Mod(p + j, |xs|)]
      {
        if p + j >= |xs| {
          assert Mod(p + j, |xs|) == Mod(p + j - |xs|, |xs|);
        }
      }
      r
  }

  /** The remainder of `a` modulo a positive `n`: `n` is added or subtracted
      until the value lies in [0, n). It equals Dafny's `%` (`ModIsEuclidean`);
      the recursive form is kept because the pointer proofs then need no
      reasoning about division. */
  function Mod(a: int, n: int): (r: int)
    requires n > 0
    ensures 0 <= r < n
    decreases if a < 0 then 1 else 0, if a < 0 then -a else a
  {
    if 0 <= a < n then a
    else if a >= n then Mod(a - n, n)
    else Mod(a + n, n)
  }

  /** `Mod` is the Euclidean remainder, Dafny's `%`. */
  lemma {:induction false} ModIsEuclidean(a: int, n: int)
    requires n > 0
    ensures Mod(a, n) == a % n
    decreases if a < 0 then 1 else 0, if a < 0 then -a else a
  {
    if 0 <= a < n {
      ModUnique(a, n, 0, a);
    } else if a >= n {
      ModIsEuclidean(a - n, n);
      ModSub(a, n);
    } else {
      ModIsEuclidean(a + n, n);
      ModSub(a + n, n);
    }
  }
}

=== FILE: errors.dfy ===
/** The exceptions the tree and the simulator can raise, as values. */
module Errors {

  /** IndexOutOfBounds: a positional access outside its valid range.
      IllegalState: reading a value from an empty tree. */
  datatype Error = IndexOutOfBounds | IllegalState

  /** Either the normal result of an operation or the exception it raised. */
  datatype Result<+T> = Ok(value: T) | Err(error: Error)
}

=== FILE: mod_arith.dfy ===
/** Facts about Dafny's Euclidean `%` used by the pointer arithmetic. */
module ModArith {

  lemma MulAtLeast(b: int, d: int)
    requires b > 0 && d >= 1
    ensures b * d >= b
  {
  }

  /** A remainder is determined by any quotient that leaves it in range. */
  lemma ModUnique(x: int, b: int, k: int, r: int)
    requires b > 0 && 0 <= r < b && x == b * k + r
    ensures x % b == r
  {
    var k' := x / b;
    var r' := x % b;
    assert x == b * k' + r';
    var d := k - k';
    assert b * d == r' - r;
    if d >= 1 {
      MulAtLeast(b, d);
    } else if d <= -1 {
      MulAtLeast(b, -d);
    }
  }

  /** Subtracting the divisor does not change the remainder. */
  lemma ModSub(a: int, b: int)
    requires b > 0
    ensures (a - b) % b == a % b
  {
    ModUnique(a - b, b, a / b - 1, a % b);
  }
}

=== FILE: sequence_steps.dfy ===
/**
 What the simulator does, stated on its in-order contents instead of on the
 tree: every step of the Java program with Java's remainder (`JavaRem`) and with
 the exceptions it can raise as `Err` results. The tree-backed simulator is
 proved to compute exactly these functions, and these functions are related
 here to the Euclidean reference step of `CyclicSpec`.
 */
module SequenceSteps {
  import opened Errors
  import opened CyclicSpec

  /* ---------------------------------------------------------------
     Java's remainder and the index arithmetic built from it
     --------------------------------------------------------------- */

  /** Java's `%` for a positive divisor. Java's division truncates toward
      zero, so the remainder is what is left after moving the dividend
      toward zero by whole divisors: it keeps the dividend's sign and is
      smaller than the divisor in magnitude. */
  function JavaRem(a: int, b: int): (r: int)
    requires b > 0
    ensures -b < r < b
    ensures a >= 0 ==> r >= 0
    ensures a <= 0 ==> r <= 0
    decreases if a < 0 then -a else a
  {
    if -b < a < b then a
    else if a >= b then JavaRem(a - b, b)
    else JavaRem(a + b, b)
  }

  /** Java's remainder is the Euclidean one on non-negative dividends; on
      negative ones it is that remainder or that remainder less the divisor. */
  lemma {:induction false} JavaRemMod(a: int, b: int)
    requires b > 0
    ensures a >= 0 ==> JavaRem(a, b) == Mod(a, b)
    ensures a < 0 ==> JavaRem(a, b) == Mod(a, b) || JavaRem(a, b) == Mod(a, b) - b
    decreases if a < 0 then -a else a
  {
    if a >= b {
      JavaRemMod(a - b, b);
    } else if a <= -b {
      JavaRemMod(a + b, b);
    }
  }

  /** Java's `(pointer + j) % size`: the position the renderer reads for the
      `j`-th output element. */
  function CyclicIndex(pointer: int, j: int, size: int): (r: int)
    requires size > 0
    ensures -size < r < size
    ensures r >= 0 ==> r == Mod(pointer + j, size)
    ensures pointer + j >= 0 ==> r == Mod(pointer + j, size)
    ensures pointer + j < 0 ==> r <= 0
    ensures r < 0 ==> r == Mod(pointer + j, size) - size
  {
    JavaRemMod(pointer + j, size);
    JavaRem(pointer + j, size)
  }

  /** Every position the renderer reads is non-negative, so the read-out
      raises no exception. */
  predicate Readable(c: Config)
  {
    forall j :: 0 <= j < |c.xs| ==> CyclicIndex(c.p, j, |c.xs|) >= 0
  }

  /** Where ADD inserts: `size` when the pointer is on the last element,
      `(pointer + 1) % size` otherwise. Both name the slot right after the
      pointer. */
  function AddPosition(pointer: int, size: int): (pos: int)
    requires size > 0
    ensures 0 <= pointer < size ==> pos == pointer + 1
  {
    if pointer == size - 1 then size else JavaRem(pointer + 1, size)
  }

  /** Where DELETE removes: 0 when the pointer is on the last element,
      `(pointer + 1) % size` otherwise. Both name the element cyclically
      after the pointer. */
  function RemovePosition(pointer: int, size: int): (pos: int)
    requires size > 0
    ensures 0 <= pointer < size ==> pos == Successor(pointer, size)
  {
    if pointer + 1 == size then 0 else JavaRem(pointer + 1, size)
  }

  /** The pointer after DELETE, given the reduced pointer `p`, the removed
      position and value, and the new size `n`: step back one place when the
      removed slot was at or before the pointer, then move `x` places (Java
      `%`); an emptied sequence resets it to 0. */
  function PointerAfterDelete(p: int, removePos: int, x: int, n: int): (r: int)
    ensures n > 0 ==> -n < r < n
    ensures n <= 0 ==> r == 0
  {
    if n > 0 then
      var q := if removePos <= p then JavaRem(p - 1 + n, n) else p;
      JavaRem(q + x, n)
    else 0
  }

  /* ---------------------------------------------------------------
     The operations
     --------------------------------------------------------------- */

  /** The value at `idx`, first reduced with Java's `%` by the size; an
      empty sequence raises IllegalState, a negative reduced index
      IndexOutOfBounds. */
  function ValueAt(c: Config, idx: int): (r: Result<int>)
    ensures |c.xs| == 0 ==> r == Err(IllegalState)
    ensures 0 <= idx < |c.xs| ==> r == Ok(c.xs[idx])
    ensures idx >= 0 && |c.xs| > 0 ==> r == Ok(c.xs[Mod(idx, |c.xs|)])
    ensures r.Err? && |c.xs| > 0 ==> idx < 0 && r.error == IndexOutOfBounds
    ensures |c.xs| > 0 ==> (r.Ok? <==> JavaRem(idx, |c.xs|) >= 0)
    ensures r.Ok? ==> r.value == c.xs[Mod(idx, |c.xs|)]
  {
    var n := |c.xs|;
    if n == 0 then Err(IllegalState)
    else
      JavaRemMod(idx, n);
      var j := JavaRem(idx, n);
      if j < 0 then Err(IndexOutOfBounds) else Ok(c.xs[j])
  }

  /** ADD for the value `x`: insert `x - 1` at `AddPosition`, then move the
      pointer `x` places (Java `%`) around the grown sequence. */
  function AddStep(c: Config, x: int): (r: Result<Config>)
    ensures |c.xs| == 0 ==> r == Ok(c)
    ensures PointerInRange(c) ==> r.Ok?
    ensures r.Err? ==> r.error == IndexOutOfBounds
  {
    var n := |c.xs|;
    if n == 0 then Ok(c)
    else
      var pos := AddPosition(c.p, n);
      if pos < 0 || pos > n then Err(IndexOutOfBounds)
      else
        Ok(Config(c.xs[..pos] + [x - 1] + c.xs[pos..], JavaRem(c.p + x, n + 1)))
  }

  /** DELETE: reduce the pointer (Java `%`), remove the element at
      `RemovePosition`, and move the pointer with `PointerAfterDelete` by the
      removed value. */
  function DeleteStep(c: Config): (r: Result<Config>)
    ensures |c.xs| == 0 ==> r == Ok(c)
    ensures PointerInRange(c) ==> r.Ok?
    ensures r.Err? ==> r.error == IndexOutOfBounds
  {
    var n := |c.xs|;
    if n == 0 then Ok(c)
    else
      var p := JavaRem(c.p, n);
      var q := RemovePosition(p, n);
      if q < 0 || q >= n then Err(IndexOutOfBounds)
      else
        Ok(Config(c.xs[..q] + c.xs[q + 1..], PointerAfterDelete(p, q, c.xs[q], n - 1)))
  }

  /** One operation: nothing on an empty sequence; otherwise ADD when the
      value under the pointer is odd in Java's sense (`v % 2 == 1`, so only
      positive odd values), DELETE otherwise. */
  function Step(c: Config): (r: Result<Config>)
    ensures |c.xs| == 0 ==> r == Ok(c)
  {
    if |c.xs| == 0 then Ok(c)
    else
      match ValueAt(c, c.p)
      case Err(e) => Err(e)
      case Ok(v) => if JavaRem(v, 2) == 1 then AddStep(c, v) else DeleteStep(c)
  }

  /** `k` operations in a row; an exception ends the run. */
  function Run(c: Config, k: int): (r: Result<Config>)
    ensures k <= 0 ==> r == Ok(c)
    decreases k
  {
    if k <= 0 then Ok(c)
    else
      match Step(c)
      case Err(e) => Err(e)
      case Ok(d) => Run(d, k - 1)
  }

  /** A successful ADD of `x` adds exactly one copy of `x - 1`. */
  lemma AddStepContents(c: Config, x: int)
    requires |c.xs| > 0 && AddStep(c, x).Ok?
    ensures |AddStep(c, x).value.xs| == |c.xs| + 1
    ensures multiset(AddStep(c, x).value.xs) == multiset(c.xs) + multiset{x - 1}
  {
    var pos := AddPosition(c.p, |c.xs|);
    assert c.xs == c.xs[..pos] + c.xs[pos..];
  }

  /** A successful DELETE removes exactly one element, the one at
      `RemovePosition`. */
  lemma DeleteStepContents(c: Config)
    requires |c.xs| > 0 && DeleteStep(c).Ok?
    ensures var q := RemovePosition(JavaRem(c.p, |c.xs|), |c.xs|);
            0 <= q < |c.xs|
            && |DeleteStep(c).value.xs| == |c.xs| - 1
            && multiset(DeleteStep(c).value.xs) == multiset(c.xs) - multiset{c.xs[q]}
  {
    var q := RemovePosition(JavaRem(c.p, |c.xs|), |c.xs|);
    assert c.xs == c.xs[..q] + [c.xs[q]] + c.xs[q + 1..];
  }

  /* ---------------------------------------------------------------
     With the pointer in range and non-negative values, each operation is
     the Euclidean reference step
     --------------------------------------------------------------- */

  /** ADD from an in-range pointer with a non-negative value is `Grow`. */
  lemma AddRefinesGrow(c: Config)
    requires PointerInRange(c) && |c.xs| > 0 && c.xs[c.p] >= 0
    ensures AddStep(c, c.xs[c.p]) == Ok(Grow(c))
  {
    JavaRemMod(c.p + c.xs[c.p], |c.xs| + 1);
  }

  /** With the pointer in range, the pointer update of DELETE is the one
      `Shrink` makes. */
  lemma PointerAfterDeleteMatches(p: int, n: int, x: int)
    requires 0 <= p < n + 1 && x >= 0
    ensures var q := Successor(p, n + 1);
            PointerAfterDelete(p, q, x, n)
              == if n == 0 then 0 else Mod((if q == 0 then p - 1 else p) + x, n)
  {
    var q := Successor(p, n + 1);
    if n > 0 {
      if q <= p {
        assert q == 0 && p == n;
        assert JavaRem(p - 1 + n, n) == p - 1 by {
          assert JavaRem(p - 1 + n, n) == JavaRem(p - 1, n);
        }
      }
      JavaRemMod((if q == 0 then p - 1 else p) + x, n);
    }
  }

  /** DELETE from an in-range pointer removing a non-negative value is
      `Shrink`. */
  lemma DeleteRefinesShrink(c: Config)
    requires PointerInRange(c) && |c.xs| > 0
    requires c.xs[Successor(c.p, |c.xs|)] >= 0
    ensures DeleteStep(c) == Ok(Shrink(c))
  {
    var n := |c.xs|;
    assert JavaRem(c.p, n) == c.p;
    PointerAfterDeleteMatches(c.p, n - 1, c.xs[Successor(c.p, n)]);
  }

  /** DELETE from an in-range pointer, whatever the signs of the values,
      removes exactly the element cyclically after the pointer, keeping the
      others in order, and moves the pointer as `Shrink` does but with
      Java's `%`. */
  lemma DeleteRemovesSuccessor(c: Config)
    requires PointerInRange(c) && |c.xs| > 0
    ensures DeleteStep(c).Ok?
    ensures DeleteStep(c).value.xs == Shrink(c).xs
    ensures var n := |c.xs|;
            var q := Successor(c.p, n);
            DeleteStep(c).value.p
              == if n == 1 then 0 else JavaRem((if q == 0 then c.p - 1 else c.p) + c.xs[q], n - 1)
  {
    var n := |c.xs|;
    assert JavaRem(c.p, n) == c.p;
    var q := Successor(c.p, n);
    if n > 1 && q == 0 {
      assert JavaRem(c.p - 1 + (n - 1), n - 1) == c.p - 1 by {
        assert JavaRem(c.p - 1 + (n - 1), n - 1) == JavaRem(c.p - 1, n - 1);
      }
    }
  }

  /** From an in-range pointer an operation reads the current value and
      performs ADD exactly when that value is positive and odd, DELETE
      otherwise (a negative odd value included). */
  lemma StepDispatch(c: Config)
    requires PointerInRange(c) && |c.xs| > 0
    ensures Step(c) == if c.xs[c.p] > 0 && c.xs[c.p] % 2 == 1 then AddStep(c, c.xs[c.p]) else DeleteStep(c)
  {
    assert ValueAt(c, c.p) == Ok(c.xs[c.p]);
    JavaRemMod(c.xs[c.p], 2);
    ModIsEuclidean(c.xs[c.p], 2);
  }

  /** With the pointer in range and every value non-negative, an operation
      never fails and is the reference step `Next`. */
  lemma StepRefinesNext(c: Config)
    requires PointerInRange(c) && NonNegative(c.xs)
    ensures Step(c) == Ok(Next(c))
  {
    NonNegativeIndex(c.xs);
    if |c.xs| > 0 {
      var v := c.xs[c.p];
      assert ValueAt(c, c.p) == Ok(v);
      JavaRemMod(v, 2);
      ModIsEuclidean(v, 2);
      if v % 2 == 1 {
        AddRefinesGrow(c);
      } else {
        DeleteRefinesShrink(c);
      }
    }
  }

  /** `k` operations from an in-range pointer over non-negative values never
      fail and are `k` reference steps. */
  lemma {:induction false} RunRefinesIterate(c: Config, k: nat)
    requires PointerInRange(c) && NonNegative(c.xs)
    ensures Run(c, k) == Ok(Iterate(c, k))
    decreases k
  {
    if k > 0 {
      var d := FirstStepRefines(c, k);
      RunRefinesIterate(d, k - 1);
    }
  }

  /** The first of `k` operations and the first reference step reach the
      same configuration `d`, and the hypotheses carry over to it. */
  lemma FirstStepRefines(c: Config, k: nat) returns (d: Config)
    requires PointerInRange(c) && NonNegative(c.xs) && k > 0
    ensures PointerInRange(d) && NonNegative(d.xs)
    ensures Run(c, k) == Run(d, k - 1)
    ensures Iterate(c, k) == Iterate(d, k - 1)
  {
    d := Next(c);
    StepRefinesNext(c);
    RunAfterStep(c, k, d);
    NextNonNegative(c);
    IterateUnfold(c, k);
  }

  /** A run that starts with a successful operation continues from its
      result. */
  lemma RunAfterStep(c: Config, k: int, d: Config)
    requires k > 0 && Step(c) == Ok(d)
    ensures Run(c, k) == Run(d, k - 1)
  {
  }

  /** A run whose first operation fails fails with that exception. */
  lemma RunStopsAtError(c: Config, k: int, e: Error)
    requires k > 0 && Step(c) == Err(e)
    ensures Run(c, k) == Err(e)
  {
  }

  /** The pointer bound: starting in range over non-negative values, after
      any number of operations the pointer addresses an element of a
      non-empty sequence, or is 0 for an empty one. */
  lemma PointerBound(c: Config, k: nat)
    requires PointerInRange(c) && NonNegative(c.xs)
    ensures Run(c, k).Ok?
    ensures PointerInRange(Run(c, k).value)
    ensures NonNegative(Run(c, k).value.xs)
  {
    RunRefinesIterate(c, k);
    NonNegativeStays(c, k);
  }

  /** Operations on an empty sequence change nothing, however many. */
  lemma {:induction false} EmptyStaysEmpty(p: int, k: int)
    ensures Run(Config([], p), k) == Ok(Config([], p))
    decreases k
  {
    if k > 0 {
      EmptyStaysEmpty(p, k - 1);
    }
  }

  /* ---------------------------------------------------------------
     Where Java's `%` departs from the reference step
     --------------------------------------------------------------- */

  /** A negative even value drags the pointer below 0: from [2, -3, 5] the
      first DELETE removes -3 and leaves the pointer at `-3 % 2 == -1`, and
      the next operation reads position -1 and fails. */
  lemma NegativeValueBreaksPointer()
    ensures Step(Config([2, -3, 5], 0)) == Ok(Config([2, 5], -1))
    ensures Run(Config([2, -3, 5], 0), 2) == Err(IndexOutOfBounds)
  {
    var c := Config([2, -3, 5], 0);
    assert ValueAt(c, 0) == Ok(2);
    assert JavaRem(2, 2) == 0;
    assert RemovePosition(0, 3) == 1;
    assert [2, -3, 5][..1] + [2, -3, 5][2..] == [2, 5];
    assert PointerAfterDelete(0, 1, -3, 2) == -1;
    var d := Config([2, 5], -1);
    assert Step(c) == Ok(d);
    assert JavaRem(-1, 2) == -1;
    assert ValueAt(d, -1) == Err(IndexOutOfBounds);
    assert Step(d) == Err(IndexOutOfBounds);
  }

  /** A negative odd value counts as even for Java's `%`: from [-3] the
      Java program deletes where the reference step grows. */
  lemma NegativeOddDeletes()
    ensures Step(Config([-3], 0)) == Ok(Config([], 0))
    ensures Next(Config([-3], 0)) == Config([-3, -4], 1)
  {
    var c := Config([-3], 0);
    assert ValueAt(c, 0) == Ok(-3);
    assert JavaRem(-3, 2) == -1;
    assert JavaRem(0, 1) == 0;
    assert RemovePosition(0, 1) == 0;
    assert [-3][..0] + [-3][1..] == [];
    assert DeleteStep(c) == Ok(Config([], 0));
    assert Mod(-3, 2) == 1;
    assert [-3][..1] + [-4] + [-3][1..] == [-3, -4];
  }

  /* ---------------------------------------------------------------
     Worked runs
     --------------------------------------------------------------- */

  /** From [1, 2] one ADD inserts 0 after the 1 and moves the pointer onto
      it, so the contents read from the pointer are [0, 2, 1]. */
  lemma OneAddFromOneTwo()
    ensures Run(Config([1, 2], 0), 1) == Ok(Config([1, 0, 2], 1))
    ensures Iterate(Config([1, 2], 0), 1) == Config([1, 0, 2], 1)
    ensures Rotation([1, 0, 2], 1) == [0, 2, 1]
  {
    var c := Config([1, 2], 0);
    assert ValueAt(c, 0) == Ok(1);
    assert JavaRem(1, 2) == 1;
    assert AddPosition(0, 2) == 1;
    assert JavaRem(1, 3) == 1;
    assert [1, 2][..1] + [0] + [1, 2][1..] == [1, 0, 2];
    assert Step(c) == Ok(Config([1, 0, 2], 1));
    RunAfterStep(c, 1, Config([1, 0, 2], 1));
    RunRefinesIterate(c, 1);
    var r := Rotation([1, 0, 2], 1);
    assert Mod(1, 3) == 1 && Mod(2, 3) == 2 && Mod(3, 3) == 0;
    assert r[0] == 0 && r[1] == 2 && r[2] == 1;
  }

  /** From [4] one DELETE removes the only element, so nothing is left to
      read. */
  lemma OneDeleteFromFour()
    ensures Run(Config([4], 0), 1) == Ok(Config([], 0))
    ensures Iterate(Config([4], 0), 1) == Config([], 0)
    ensures Rotation([], 0) == []
  {
    var c := Config([4], 0);
    assert ValueAt(c, 0) == Ok(4);
    assert JavaRem(4, 2) == 0;
    assert JavaRem(0, 1) == 0;
    assert RemovePosition(0, 1) == 0;
    assert [4][..0] + [4][1..] == [];
    assert Step(c) == Ok(Config([], 0));
    RunAfterStep(c, 1, Config([], 0));
    RunRefinesIterate(c, 1);
  }
}
